=== FILE: README.md ===
# Mystery Message: a Dafny model of the account and message routes

This project models the server-side decisions of an anonymous-feedback web application. A visitor
can send an anonymous message to any username. The account owner signs up with a username, an email
and a password, then proves ownership of the email with a six-digit code that expires after one hour.
The model covers:

- the four API routes that hold the decisions: sign-up, code verification, message intake and the
  username-availability check;
- the zod schemas for usernames, passwords and message content;
- the redirect decision of the Next.js middleware.

Every route is a pure function over an abstract user store. The store is a sequence of `User`
records (`Accounts.User`). Mongoose's `findOne(filter)` means "the first record in store order that
matches the filter" (`Accounts.FindOne`). A route returns its `{ success, message }` response with
its HTTP status, together with the store it leaves behind. The environment enters as parameters:

- the clock, as integer milliseconds;
- the `Math.random()` draws, as reals in [0, 1);
- the bcrypt hashes, as strings;
- whether saving the new account succeeds, as a boolean;
- the mailer's reply;
- `decodeURIComponent`, as a function that may fail.

Modules, one per source file:

| module | file | models |
|---|---|---|
| `Wrappers` | wrappers.dfy | `Option` |
| `Accounts` | accounts.dfy | the `User`/`Message` documents, the response envelope, `findOne` |
| `Decimal` | decimal.dfy | `Number#toString` on naturals and its inverse |
| `SignUpSchema` | sign_up_schema.dfy | schemas/signUpSchema.ts |
| `MessageSchema` | message_schema.dfy | schemas/messageSchema.ts |
| `Middleware` | middleware.dfy | middleware.ts |
| `SignUpRoute` | sign_up_route.dfy | app/api/sign-up/route.ts |
| `VerifyCodeRoute` | verify_code_route.dfy | app/api/verify-code/route.ts |
| `SendMessageRoute` | send_message_route.dfy | app/api/send-message/route.ts |
| `CheckUsernameRoute` | check_username_route.dfy | app/api/check-username-unique/route.ts |
| `StoreInvariants` | store_invariants.dfy | properties that span several routes |
| `ReclaimFinding` | reclaim_finding.dfy | the sign-up reclaim defect and its correction |
| `Scenario` | scenario.dfy | one full life cycle through the routes |

The routes trust their input more than the schemas suggest:

- The message route does not check the content length. `messageSchema` is applied only by the public
  message form (app/u/[username]/page.tsx:40-41), so the route accepts content of any length.
- The sign-up route does not apply `signUpSchema`. Only the sign-up form does
  (app/(auth)/sign-up/page.tsx:33-34).
- Email addresses are not kept unique by the sign-up route (see Findings).

## Model

| member | source | states |
|---|---|---|
| Accounts.FindOne | app/api/sign-up/route.ts:13-16 | `findOne` returns the first record matching the filter, and `None` exactly when no record matches |
| Decimal.ParseToString | app/api/sign-up/route.ts:56 | reading back the decimal string of a code gives the number drawn |
| Decimal.ToStringInjective | app/api/verify-code/route.ts:28 | two codes are equal as strings exactly when they are equal as numbers |
| Decimal.LengthOfToString | app/api/sign-up/route.ts:56 | a number with k digits has a decimal string of length k |
| SignUpRoute.CodeFromDraw | app/api/sign-up/route.ts:56 | `floor(100000 + r * 900000)` lies in [100000, 999999] for every r in [0, 1) |
| SignUpRoute.CodeString | app/api/sign-up/route.ts:46 | the stored code is exactly six decimal digits, with no leading zero, and reads back as the drawn number |
| SignUpRoute.NewAccount | app/api/sign-up/route.ts:59-68 | the new account carries the submitted username and email, a six-digit code in [100000, 999999], an expiry of now + 3,600,000 ms, the store's default flags and an empty mailbox |
| SignUpRoute.Reclaimed | app/api/sign-up/route.ts:43-48 | the reclaim changes nothing but password, code and expiry; the new code has six digits in [100000, 999999] and expires at now + 3,600,000 ms |
| SignUpRoute.Insert | app/api/sign-up/route.ts:61-98 | a failed save answers 500 and stores nothing new; otherwise the new account is appended, its own code is mailed, and success follows the mailer's reply |
| SignUpRoute.Register | app/api/sign-up/route.ts:6-110 | a verified holder of the username gives 400 "Username is already taken." and leaves the store unchanged, whatever the email; otherwise a verified first holder of the email gives 400 "User already exists with this email.", again unchanged. Past both checks: a failed save gives 500 "Failed to register user." with no mail and no new account. Otherwise the new account is appended and its code (the second draw) is mailed; the answer is 201 if the mailer succeeds and 500 with the mailer's message if not. An unknown email only gains the new account, and an unverified first holder of the email is reclaimed first. The store grows by at most one record |
| SignUpRoute.ReclaimFallsThrough | app/api/sign-up/route.ts:42-76 | for an unverified email holder, that record is reclaimed AND a second record with the same email is appended; the mailed code is the new record's draw, not the reclaimed one's |
| SignUpRoute.MailFailureKeepsAccount | app/api/sign-up/route.ts:69-88 | when the mailer fails, the answer is 500 with the mailer's message, but the new account is already stored |
| SignUpRoute.WrittenCodesAreFresh | app/api/sign-up/route.ts:46-59 | every record sign-up writes has a six-digit code in [100000, 999999] and an expiry exactly one hour after the request; the only existing record that can change is the unverified first holder of the email |
| SignUpRoute.RouteSkipsSchema | app/api/sign-up/route.ts:10-13 | the schema rejects the username "a" and the password "p", and the route registers them |
| SignUpRoute.RegisterFixed | app/api/sign-up/route.ts:28-50 | corrected route: the username and email conflicts answer 400 as in the route as written. An unverified first holder of the email gets only a new password, a six-digit code and a one-hour expiry; that code is mailed to the submitted email, no account is added and no other account changes; the answer follows the mailer. An unknown email is registered as a new account exactly as in the route as written |
| VerifyCodeRoute.Verify | app/api/verify-code/route.ts:4-88 | a decoding failure gives 500 and no holder of the username gives 404, both leaving the store unchanged; success holds exactly when the first holder's code equals the submitted one and NOT (expiry < now); success changes only that record's `isVerified`, to true; every failure leaves the store unchanged |
| VerifyCodeRoute.VerifyDecision | app/api/verify-code/route.ts:28-74 | the three outcomes: match and expiry >= now gives 200 and sets the flag; expiry < now gives "Code has expired" whether or not the code matches; a mismatch before expiry gives "The code is incorrect" |
| VerifyCodeRoute.VerifyOnlyRaisesFlag | app/api/verify-code/route.ts:35-37 | no request removes, adds or alters anything but `isVerified`, and no verified account becomes unverified |
| VerifyCodeRoute.VerifyIdempotent | app/api/verify-code/route.ts:28-48 | repeating a successful verification succeeds again and changes nothing more |
| SendMessageRoute.Send | app/api/send-message/route.ts:10-45 | no holder of the username gives 404 with the store unchanged; otherwise a first holder that does not accept messages gives 403, unchanged; success holds exactly when the first holder accepts, and it appends `{content, now}` to that holder's mailbox only; a successful send answers 200 "message sent successfully" |
| SendMessageRoute.SendAppendsOne | app/api/send-message/route.ts:33-37 | on success the mailbox grows by one, the old mailbox is a prefix, the last message is `{content, now}`, and no other field or account changes |
| SendMessageRoute.SendIgnoresLengthAndVerification | app/api/send-message/route.ts:8-37 | a 451-character message to an unverified, accepting account is delivered |
| SignUpSchema.UsernameErrors | schemas/signUpSchema.ts:3-7 | no messages exactly when the length is 2..20 and every character is in `[a-zA-Z0-9_]`; each message appears exactly when its own rule fails: "Min 2 chars" iff shorter than 2, "Max 20 chars" iff longer than 20, the pattern message iff the name is empty or has a character outside the class; nothing but these three messages appears, each at most once and in the schema's declaration order (`.min`, `.max`, `.regex`) |
| SignUpSchema.UsernameValidIff | schemas/signUpSchema.ts:3-7 | a username is valid iff it has 2 to 20 characters, all from `[a-zA-Z0-9_]` |
| SignUpSchema.UsernameLengthBoundaries | schemas/signUpSchema.ts:5-6 | lengths 1 and 21 are rejected with the min and max messages |
| SignUpSchema.ForeignCharRejected | schemas/signUpSchema.ts:7 | one character outside the class rejects a username of any length |
| SignUpSchema.PasswordErrors | schemas/signUpSchema.ts:12-14 | a password has no messages exactly when it has at least 6 characters |
| SignUpSchema.PasswordValidIff | schemas/signUpSchema.ts:12-14 | a password is valid iff its length is at least 6 |
| SignUpSchema.SignUpIssues | schemas/signUpSchema.ts:9-15 | the sign-up object has no issues exactly when username, email and password are each valid; every issue names one of the three fields; a field is named exactly when it is invalid, and only with its own messages (a username message of that name, "Invalid email address", the password-length message); one issue per failed check |
| SignUpSchema.SignUpValidIff | schemas/signUpSchema.ts:9-15 | sign-up validity is the conjunction of the three field rules |
| MessageSchema.ContentErrors | schemas/messageSchema.ts:3-7 | content has no messages exactly when it has at most 450 characters |
| MessageSchema.ContentValidIff | schemas/messageSchema.ts:4-6 | 450 characters are accepted (although the message says "less than"), 451 are rejected, and the empty message is accepted |
| MessageSchema.ValidContentPrefixClosed | schemas/messageSchema.ts:4-6 | every prefix of valid content is valid |
| Middleware.Redirect | middleware.ts:6-17 | exactly three outcomes: to "/dashboard" iff there is a token and the path is a sign-in, sign-up or root page; to "/sign-in" iff there is no token and the path is under "/dashboard"; otherwise no redirect |
| Middleware.RedirectKeepsSessionSide | middleware.ts:10-16 | a visitor with a token is never sent to "/sign-in"; one without a token is never sent to "/dashboard" |
| Middleware.RedirectSettles | middleware.ts:10-16 | the redirect target is never redirected again for the same visitor, so there is no redirect loop |
| Middleware.RootIsExact | middleware.ts:10 | "/" is compared for equality: with a token, "/" redirects and "/foo" does not |
| Middleware.VerifyPagesPassThrough | middleware.ts:6-17 | paths under "/verify" are never redirected |
| CheckUsernameRoute.QueryErrors | app/api/check-username-unique/route.ts:14-19 | the parse succeeds exactly when the parameter is present and a valid username; a missing parameter yields zod's type message |
| CheckUsernameRoute.Join | app/api/check-username-unique/route.ts:26 | the joined text begins with the first message, and is that message alone when there is only one |
| CheckUsernameRoute.Check | app/api/check-username-unique/route.ts:10-62 | an unusable parameter gives 400 with the joined messages; a valid username gives 400 "Username is already taken." iff a verified account holds it; success holds iff the username is valid and no verified account holds it, and then the answer is 200 "Username is available." |
| CheckUsernameRoute.FallbackMessageUnreachable | app/api/check-username-unique/route.ts:20-27 | a failed parse always has at least one username message, so "Invalid query params" is never the answer |
| CheckUsernameRoute.InvalidParamIgnoresStore | app/api/check-username-unique/route.ts:14-31 | for an unusable parameter the answer is a 400 that does not depend on the store |
| CheckUsernameRoute.UnverifiedHoldersDoNotBlock | app/api/check-username-unique/route.ts:34-54 | a valid username held only by unverified accounts, or by none, is available |
| StoreInvariants.OnlyFirstHolderVerifiedGivesUniqueness | app/api/sign-up/route.ts:13-16 | if only the first holder of each username can be verified, no two verified accounts share a username |
| StoreInvariants.RegisterTouchesOnlyUnverified | app/api/sign-up/route.ts:33-69 | sign-up leaves every verified account exactly as it was; on other accounts it changes at most password, code and expiry; it adds at most one account, whose verification flag is the store default |
| StoreInvariants.RegisterKeepsInvariant | app/api/sign-up/route.ts:13-69 | sign-up keeps "only the first holder of a username is verified" when new accounts start unverified |
| StoreInvariants.RegisterFixedKeepsInvariant | app/api/sign-up/route.ts:28-50 | the corrected sign-up keeps the same invariant |
| StoreInvariants.VerifyKeepsInvariant | app/api/verify-code/route.ts:12-37 | verification keeps it, because it always acts on the first holder of the username |
| StoreInvariants.SendKeepsInvariant | app/api/send-message/route.ts:10-37 | message intake keeps it |
| StoreInvariants.CheckAgreesWithRegister | app/api/check-username-unique/route.ts:34-46 | for a valid username, the check answers "available" exactly when sign-up would not stop with "Username is already taken." |
| ReclaimFinding.AsWrittenDuplicatesEmail | app/api/sign-up/route.ts:42-69 | as written, retrying an unverified sign-up succeeds and leaves two accounts with the same email |
| ReclaimFinding.AsWrittenMailsUnusableCode | app/api/sign-up/route.ts:46-76 | as written, the mailed code from that retry is answered "The code is incorrect" at once |
| ReclaimFinding.FixedMailsUsableCode | app/api/sign-up/route.ts:42-50 | corrected, the same retry succeeds and its mailed code verifies |
| ReclaimFinding.FixedKeepsEmailsUnique | app/api/sign-up/route.ts:28-69 | corrected, sign-up never puts two accounts under one email |
| ReclaimFinding.FixedRetryUnderOtherName | app/api/sign-up/route.ts:42-76 | corrected, a retry under a different username still succeeds, but the code is stored on the account found by email (another name), so verifying under the mailed name answers 404 |
| ReclaimFinding.FixedMailedCodeVerifies | app/api/sign-up/route.ts:42-76 | corrected, the mailed code verifies until its expiry, whenever the account it was stored on is the first holder of the mailed username |
| Scenario.SignUpVerifyReceive | app/api/send-message/route.ts:10-45 | sign-up, verification with the mailed code, a delivered "hello", then a 403 once acceptance is off, with the mailbox still holding the one message |

## Left out

- Failures outside the modelled decisions are not modelled:
  - `save()` failures and the generic `catch` blocks of the routes. A failed save inside a `try` answers
    500 with the route's generic message. Two exceptions are modelled: the insert of the new account at
    sign-up (`Env.insertOk`) and `decodeURIComponent` in verification.
  - Request JSON parsing. In the send-message route, `request.json()` runs before the `try`
    (app/api/send-message/route.ts:8-9), so a malformed body escapes the handler without the route's
    error envelope.
  - The database connection. `dbConnect()` is awaited outside every route's `try`, and a failed
    connection ends the process (lib/dbConnect.ts:19-21), so no response is sent at all.
- The `User` model (models/User) is not part of this model. Its defaults for `isVerified` and
  `isAcceptingMessages` are a `Defaults` parameter, and the new account starts with an empty mailbox.
  Any unique index it declares is represented only by `insertOk`.
- bcrypt: the two hashes are opaque strings passed in. The `password` argument of `Register` is therefore
  not otherwise used. Hash comparison at login (the `authorize` callback) is not part of this model.
- `Math.random()` is a real in [0, 1), not an IEEE double. Rounding of `r * 900000` in double precision is
  not modelled.
- SignUpRoute.Register: both `Date.now()` reads of one request are taken as the same instant `env.now`.
  In the code they may differ by the milliseconds between lines 47 and 59.
- `sendVerificationEmail` is an input: only its reply is modelled, together with the arguments it is called with.
- zod's `.email()` pattern is the abstract predicate `isEmail`. zod measures string length in UTF-16 code
  units, and the model uses Dafny characters.
- Middleware: token retrieval (`getToken`) is reduced to a boolean. The `matcher` configuration is not
  modelled: which paths reach the middleware is framework behaviour, so `Redirect` is defined for every
  path. Also not modelled is which of the two exported middlewares the framework runs.
- The accept-messages, get-messages, delete-message and suggest-messages routes, the pages and the
  layout are not part of this model. The scenario performs the acceptance switch as a plain field write.
- Concurrency: two requests doing read-modify-write on the same account are outside a sequential model.
- Message ids (`_id`) that the store gives embedded messages are not modelled.

## Findings

| source | as written | input that shows it | evidently intended | confidence | as-written member | corrected member |
|---|---|---|---|---|---|---|
| app/api/sign-up/route.ts:42-69 | the reclaim branch saves the reclaimed account, then falls through and inserts a second account with the same email. The mailed code is the second account's, an independent draw | store `[alice, alice@x.com, unverified]`, sign-up again as alice/alice@x.com with draws 0.0 and 0.5: the store ends with two alice@x.com accounts; verify("alice", mailed code) answers "The code is incorrect" because the lookup finds the first account, whose code is 100000, not 550000. If a unique index makes the insert throw instead, the answer is 500 and no mail is sent at all | the reclaim branch mails the code it stored on the reclaimed account and inserts nothing, so emails stay unique, and the mailed code verifies until it expires whenever the reclaimed account is also the first holder of the submitted username | medium; not executed | ReclaimFinding.AsWrittenMailsUnusableCode | ReclaimFinding.FixedKeepsEmailsUnique |

`SignUpRoute.Register` models the route as written, and `SignUpRoute.RegisterFixed` is the corrected
definition. The invariant lemmas in `StoreInvariants` are proved for both. The correction does not change
which username the mail names. A retry under a name other than the reclaimed account's still mails a
code that cannot be verified under that name (`ReclaimFinding.FixedRetryUnderOtherName`).

=== FILE: accounts.dfy ===
/** The user store behind every route: the `User` document with its embedded
    `Message`s, the JSON envelope the routes answer with, and Mongoose's
    `findOne` read as "the first record, in store order, that matches the
    filter". */
module Accounts {
  import opened Wrappers

  /** One anonymous message; it has no sender field at all. */
  datatype Message = Message(content: string, createdAt: int)

  /** One account document. Times are milliseconds since the epoch and
      `password` holds a bcrypt hash, never the plain text. */
  datatype User = User(
    username: string,
    email: string,
    password: string,
    verifyCode: string,
    verifyCodeExpiry: int,
    isVerified: bool,
    isAcceptingMessages: bool,
    messages: seq<Message>)

  /** The collection, in the order `findOne` scans it. */
  type Store = seq<User>

  /** The `{ success, message }` body together with its HTTP status. */
  datatype Response = Response(status: int, success: bool, message: string)

  /** What a route answers and the store it leaves behind. */
  datatype Outcome = Outcome(response: Response, store: Store)

  /** The three filter objects the routes pass to `findOne`. */
  datatype Query =
    | ByUsername(username: string)
    | VerifiedByUsername(username: string)
    | ByEmail(email: string)

  predicate Matches(u: User, q: Query) {
    match q
    case ByUsername(name) => u.username == name
    case VerifiedByUsername(name) => u.username == name && u.isVerified
    case ByEmail(email) => u.email == email
  }

  /** Record `i` is the one `findOne(q)` returns. */
  ghost predicate IsFirst(s: Store, i: int, q: Query) {
    && 0 <= i < |s|
    && Matches(s[i], q)
    && forall j :: 0 <= j < i ==> !Matches(s[j], q)
  }

  /** `findOne`: the index of the first matching record, or `None` when no
      record matches. */
  function FindOne(s: Store, q: Query): (r: Option<nat>)
    ensures r.Some? ==> IsFirst(s, r.value, q)
    ensures r.None? <==> forall j :: 0 <= j < |s| ==> !Matches(s[j], q)
    decreases |s|
  {
    if |s| == 0 then None
    else if Matches(s[0], q) then Some(0)
    else match FindOne(s[1..], q)
      case None => None
      case Some(i) =>
        assert forall j :: 1 <= j <= i + 1 ==> s[j] == s[1..][j - 1];
        Some(i + 1)
  }

  /** There is exactly one first match, so `IsFirst` pins `FindOne`'s answer. */
  lemma FirstIsUnique(s: Store, i: int, q: Query)
    requires IsFirst(s, i, q)
    ensures FindOne(s, q) == Some(i)
  {
  }

  /** Some record matches `q`. */
  ghost predicate Holds(s: Store, q: Query) {
    exists j :: 0 <= j < |s| && Matches(s[j], q)
  }
}

=== FILE: check_username_route.dfy ===
/** `GET /api/check-username-unique?username=...`: the query parameter is
    validated with `usernameValidation`; an invalid or missing one is a 400
    carrying the collected messages. A valid one is looked up among
    VERIFIED accounts only. The route only reads the store, so it returns a
    response and no store. */
module CheckUsernameRoute {
  import opened Wrappers
  import opened Accounts
  import SignUpSchema

  /** zod's own message when the field is not a string at all, which is
      what `searchParams.get` yields for a missing parameter (`null`). */
  const NotAString := "Expected string, received null"
  const InvalidParams := "Invalid query params"
  const Taken := "Username is already taken."
  const Available := "Username is available."

  /** The `username._errors` of `UsernameQuerySchema.safeParse`; the parse
      succeeds exactly when there are none. A non-string fails the type
      check and skips the string checks. */
  function QueryErrors(param: Option<string>): (errs: seq<string>)
    ensures errs == [] <==> param.Some? && SignUpSchema.IsValidUsername(param.value)
    ensures param.None? ==> errs == [NotAString]
  {
    match param
    case None => [NotAString]
    case Some(name) => SignUpSchema.UsernameErrors(name)
  }

  /** `errors.join(sep)`. */
  function Join(parts: seq<string>, sep: string): (joined: string)
    ensures |parts| == 1 ==> joined == parts[0]
    ensures |parts| >= 1 ==> parts[0] <= joined
  {
    if |parts| == 0 then ""
    else if |parts| == 1 then parts[0]
    else parts[0] + sep + Join(parts[1..], sep)
  }

  function Check(s: Store, param: Option<string>): (r: Response)
    // an unusable parameter is a 400, whatever the store holds
    ensures QueryErrors(param) != [] ==>
      r == Response(400, false, Join(QueryErrors(param), ", "))
    ensures QueryErrors(param) == [] ==>
      (r == Response(400, false, Taken) <==> Holds(s, VerifiedByUsername(param.value)))
    ensures r.success <==>
      && param.Some? && SignUpSchema.IsValidUsername(param.value)
      && forall j :: 0 <= j < |s| ==> !(s[j].username == param.value && s[j].isVerified)
    ensures r.success ==> r == Response(200, true, Available)
  {
    var errs := QueryErrors(param);
    if errs != [] then
      Response(400, false, if |errs| > 0 then Join(errs, ", ") else InvalidParams)
    else if FindOne(s, VerifiedByUsername(param.value)).Some? then
      Response(400, false, Taken)
    else
      Response(200, true, Available)
  }

  /** A failed parse always carries at least one message, so the fallback
      text "Invalid query params" is never what the route answers. */
  lemma FallbackMessageUnreachable(s: Store, param: Option<string>)
    ensures Check(s, param).message != InvalidParams
  {
    var errs := QueryErrors(param);
    if errs != [] {
      // every message zod can report here starts with 'E', 'M' or 'S'
      assert errs[0][0] != InvalidParams[0] by {
        if param.Some? {
          var name := param.value;
          if |name| < 2 {
            assert errs[0] == SignUpSchema.MinLengthError;
          } else if |name| > 20 {
            assert errs[0] == SignUpSchema.MaxLengthError;
          } else {
            assert errs[0] == SignUpSchema.PatternError;
          }
        }
      }
      assert errs[0] <= Join(errs, ", ");
    }
  }

  /** An unusable parameter is answered without looking at the store. */
  lemma InvalidParamIgnoresStore(s1: Store, s2: Store, param: Option<string>)
    requires !(param.Some? && SignUpSchema.IsValidUsername(param.value))
    ensures Check(s1, param) == Check(s2, param)
    ensures Check(s1, param).status == 400
  {
  }

  /** Only verified accounts make a username unavailable: a valid username
      held by unverified accounts alone is reported available. */
  lemma UnverifiedHoldersDoNotBlock(s: Store, name: string)
    requires SignUpSchema.IsValidUsername(name)
    requires forall j :: 0 <= j < |s| && s[j].username == name ==> !s[j].isVerified
    ensures Check(s, Some(name)) == Response(200, true, Available)
  {
  }
}

=== FILE: decimal.dfy ===
/** `Number.prototype.toString()` on a non-negative integer below 10^21
    (beyond that JavaScript switches to exponent notation): the decimal
    numeral with no sign and no leading zeros, and its inverse. The codes
    of the sign-up route are six-digit numbers, well inside that range. */
module Decimal {

  predicate IsDigit(c: char) {
    '0' <= c <= '9'
  }

  function DigitChar(d: nat): (c: char)
    requires d < 10
    ensures IsDigit(c) && c as int - '0' as int == d
  {
    ('0' as int + d) as char
  }

  function DigitValue(c: char): (d: nat)
    requires IsDigit(c)
    ensures d < 10 && DigitChar(d) == c
  {
    c as int - '0' as int
  }

  function Pow10(k: nat): (p: nat)
    ensures p >= 1
  {
    if k == 0 then 1 else 10 * Pow10(k - 1)
  }

  /** The decimal numeral of `n`. */
  function ToString(n: nat): (s: string)
    ensures |s| >= 1
    ensures forall k :: 0 <= k < |s| ==> IsDigit(s[k])
    ensures s[0] == '0' ==> n == 0
  {
    if n < 10 then [DigitChar(n)] else ToString(n / 10) + [DigitChar(n % 10)]
  }

  /** The value of a string of decimal digits (the empty string reads as 0). */
  function Parse(s: string): nat
    requires forall k :: 0 <= k < |s| ==> IsDigit(s[k])
  {
    if |s| == 0 then 0
    else 10 * Parse(s[..|s| - 1]) + DigitValue(s[|s| - 1])
  }

  /** Reading back a numeral gives the number it was made from. */
  lemma {:induction false} ParseToString(n: nat)
    ensures Parse(ToString(n)) == n
  {
    if n >= 10 {
      var s := ToString(n);
      assert s[..|s| - 1] == ToString(n / 10);
      ParseToString(n / 10);
    }
  }

  /** Distinct numbers have distinct numerals, so comparing codes as
      strings is comparing them as numbers. */
  lemma ToStringInjective(m: nat, n: nat)
    ensures ToString(m) == ToString(n) <==> m == n
  {
    if ToString(m) == ToString(n) {
      ParseToString(m);
      ParseToString(n);
    }
  }

  /** A number with `k` digits has a numeral of length `k`. */
  lemma {:induction false} LengthOfToString(n: nat, k: nat)
    requires 1 <= k
    requires Pow10(k - 1) <= n < Pow10(k)
    ensures |ToString(n)| == k
  {
    if n >= 10 {
      assert k >= 2;
      assert Pow10(k - 2) <= n / 10 < Pow10(k - 1);
      LengthOfToString(n / 10, k - 1);
    }
  }
}

=== FILE: message_schema.dfy ===
/** The zod `messageSchema`: the content of an anonymous message has at most
    450 characters. There is no minimum and no character rule. */
module MessageSchema {

  const MaxContentLength := 450

  /** The message text says "less than", but the check is `.max(450)`,
      which accepts exactly 450. */
  const ContentError := "Content must be less than 450 characters"

  function ContentErrors(content: string): (errs: seq<string>)
    ensures errs == [] <==> |content| <= MaxContentLength
    ensures errs != [] ==> errs == [ContentError]
  {
    if |content| > MaxContentLength then [ContentError] else []
  }

  predicate IsValidContent(content: string) {
    ContentErrors(content) == []
  }

  /** Exactly the contents of at most 450 characters are accepted; 450 is
      in, 451 is out, and the empty message is in. */
  lemma ContentValidIff(content: string)
    ensures IsValidContent(content) <==> |content| <= 450
    ensures |content| == 450 ==> IsValidContent(content)
    ensures |content| == 451 ==> !IsValidContent(content)
    ensures IsValidContent("")
  {
  }

  /** Every prefix of a valid message is valid. */
  lemma ValidContentPrefixClosed(content: string, prefix: string)
    requires IsValidContent(content)
    requires prefix <= content
    ensures IsValidContent(prefix)
  {
  }
}

=== FILE: middleware.dfy ===
/** The redirect decision of `middleware`: a signed-in visitor is sent away
    from the sign-in, sign-up and landing pages to the dashboard, a visitor
    without a session token is sent from the dashboard to sign-in, and every
    other request passes through. Whether a token is present is the only
    thing the decision reads of the session. */
module Middleware {
  import opened Wrappers

  const Dashboard := "/dashboard"
  const SignIn := "/sign-in"
  const SignUp := "/sign-up"
  const Root := "/"

  /** `pathname.startsWith(prefix)`. */
  predicate StartsWith(path: string, prefix: string) {
    prefix <= path
  }

  /** The pages a signed-in visitor has no business on. */
  predicate IsGuestPage(path: string) {
    StartsWith(path, SignIn) || StartsWith(path, SignUp) || path == Root
  }

  /** The redirect target, or `None` to let the request through. */
  function Redirect(hasToken: bool, path: string): (target: Option<string>)
    ensures target == Some(Dashboard) <==> hasToken && IsGuestPage(path)
    ensures target == Some(SignIn) <==> !hasToken && StartsWith(path, Dashboard)
    ensures target.None? <==>
      !(hasToken && IsGuestPage(path)) && !(!hasToken && StartsWith(path, Dashboard))
  {
    if hasToken && (StartsWith(path, SignIn) || StartsWith(path, SignUp) || path == Root) then
      Some(Dashboard)
    else if !hasToken && StartsWith(path, Dashboard) then
      Some(SignIn)
    else
      None
  }

  /** A signed-in visitor is never sent to sign-in and a visitor without a
      token is never sent to the dashboard. */
  lemma RedirectKeepsSessionSide(hasToken: bool, path: string)
    ensures hasToken ==> Redirect(hasToken, path) != Some(SignIn)
    ensures !hasToken ==> Redirect(hasToken, path) != Some(Dashboard)
  {
  }

  /** Following a redirect never redirects again: the target page itself
      passes through for the same visitor, so there is no redirect loop. */
  lemma RedirectSettles(hasToken: bool, path: string)
    requires Redirect(hasToken, path).Some?
    ensures Redirect(hasToken, Redirect(hasToken, path).value) == None
  {
    var target := Redirect(hasToken, path).value;
    if hasToken {
      assert target == Dashboard;
      assert !StartsWith(Dashboard, SignIn) by { assert Dashboard[1] != SignIn[1]; }
      assert !StartsWith(Dashboard, SignUp) by { assert Dashboard[1] != SignUp[1]; }
    } else {
      assert target == SignIn;
      assert !StartsWith(SignIn, Dashboard) by { assert SignIn[1] != Dashboard[1]; }
    }
  }

  /** "/" is compared for equality, not as a prefix: with a token, a path
      such as "/foo" passes through. */
  lemma RootIsExact()
    ensures Redirect(true, Root) == Some(Dashboard)
    ensures Redirect(true, "/foo") == None
  {
    assert !StartsWith("/foo", SignIn) by { assert "/foo"[1] != SignIn[1]; }
    assert !StartsWith("/foo", SignUp) by { assert "/foo"[1] != SignUp[1]; }
  }

  /** The verification pages are never redirected, with or without a token. */
  lemma VerifyPagesPassThrough(hasToken: bool, path: string)
    requires StartsWith(path, "/verify")
    ensures Redirect(hasToken, path) == None
  {
    assert path[1] == 'v';
    assert !StartsWith(path, SignIn) by { assert SignIn[1] == 's'; }
    assert !StartsWith(path, SignUp) by { assert SignUp[1] == 's'; }
    assert !StartsWith(path, Dashboard) by { assert Dashboard[1] == 'd'; }
    assert path != Root by { assert |path| >= 7; }
  }
}

=== FILE: reclaim_finding.dfy ===
/** The reclaim branch of the sign-up route falls through into the insert.
    For a retried sign-up this leaves two accounts with the same email and
    mails the code of the second, while verification and every later lookup
    find the first, whose code is a different draw. The corrected route,
    `SignUpRoute.RegisterFixed`, mails the code it stores on the reclaimed
    account and inserts nothing. */
module ReclaimFinding {
  import opened Wrappers
  import opened Accounts
  import Decimal
  import SignUpRoute
  import VerifyCodeRoute
  import StoreInvariants

  /** An abandoned sign-up: unverified, code long expired. */
  const Abandoned := User("alice", "alice@x.com", "hash0", "123456", 0, false, true, [])

  /** A retry one second in, with two different draws. */
  const Retry := SignUpRoute.Env(1000, 0.0, 0.5, "hash1", "hash2", true, SignUpRoute.MailReply(true, "sent"))

  const NewAccountDefaults := SignUpRoute.Defaults(false, true)

  /** As written, the retry succeeds and leaves two accounts with the same
      email. */
  lemma AsWrittenDuplicatesEmail()
    ensures var r := SignUpRoute.Register([Abandoned], "alice", "alice@x.com", "secret1", Retry, NewAccountDefaults);
      && r.response.success
      && |r.store| == 2
      && r.store[0].email == r.store[1].email
      && !StoreInvariants.EmailsUnique(r.store)
  {
  }

  /** As written, the code in the mail does not verify: the lookup by
      username finds the reclaimed account, which holds the other draw. */
  lemma AsWrittenMailsUnusableCode()
    ensures var r := SignUpRoute.Register([Abandoned], "alice", "alice@x.com", "secret1", Retry, NewAccountDefaults);
      && r.mail.Some?
      && VerifyCodeRoute.Verify(r.store, "alice", r.mail.value.code, Retry.now, VerifyCodeRoute.PlainDecode).response
           == Response(400, false, VerifyCodeRoute.Incorrect)
  {
    var r := SignUpRoute.Register([Abandoned], "alice", "alice@x.com", "secret1", Retry, NewAccountDefaults);
    assert SignUpRoute.CodeFromDraw(0.0) == 100_000;
    assert SignUpRoute.CodeFromDraw(0.5) == 550_000;
    assert r.store[0].verifyCode != r.mail.value.code by {
      Decimal.ToStringInjective(100_000, 550_000);
    }
    VerifyCodeRoute.VerifyDecision(r.store, "alice", r.mail.value.code, Retry.now, VerifyCodeRoute.PlainDecode, 0);
  }

  /** Corrected, the same retry verifies with the mailed code. */
  lemma FixedMailsUsableCode()
    ensures var r := SignUpRoute.RegisterFixed([Abandoned], "alice", "alice@x.com", "secret1", Retry, NewAccountDefaults);
      && r.response.success
      && r.mail.Some?
      && VerifyCodeRoute.Verify(r.store, "alice", r.mail.value.code, Retry.now, VerifyCodeRoute.PlainDecode).response.success
  {
    var r := SignUpRoute.RegisterFixed([Abandoned], "alice", "alice@x.com", "secret1", Retry, NewAccountDefaults);
    VerifyCodeRoute.VerifyDecision(r.store, "alice", r.mail.value.code, Retry.now, VerifyCodeRoute.PlainDecode, 0);
  }

  /** Corrected, sign-up never creates a second account for an email. */
  lemma FixedKeepsEmailsUnique(s: Store, username: string, email: string, password: string,
                               env: SignUpRoute.Env, defaults: SignUpRoute.Defaults)
    requires SignUpRoute.ValidEnv(env)
    requires StoreInvariants.EmailsUnique(s)
    ensures StoreInvariants.EmailsUnique(SignUpRoute.RegisterFixed(s, username, email, password, env, defaults).store)
  {
  }

  /** Corrected, the mailed code verifies until it expires, whenever the
      account the mail is about is also the first holder of the mailed
      username. */
  lemma FixedMailedCodeVerifies(s: Store, username: string, email: string, password: string,
                                env: SignUpRoute.Env, defaults: SignUpRoute.Defaults, t: int, i: int)
    requires SignUpRoute.ValidEnv(env)
    requires t <= env.now + SignUpRoute.CodeLifetimeMs
    requires var r := SignUpRoute.RegisterFixed(s, username, email, password, env, defaults);
      && r.mail.Some?
      && IsFirst(r.store, i, ByEmail(email))
      && IsFirst(r.store, i, ByUsername(username))
    ensures var r := SignUpRoute.RegisterFixed(s, username, email, password, env, defaults);
      VerifyCodeRoute.Verify(r.store, username, r.mail.value.code, t, VerifyCodeRoute.PlainDecode).response.success
  {
    var r := SignUpRoute.RegisterFixed(s, username, email, password, env, defaults);
    var k :| IsFirst(r.store, k, ByEmail(email))
             && r.store[k].verifyCode == r.mail.value.code
             && r.store[k].verifyCodeExpiry == env.now + SignUpRoute.CodeLifetimeMs;
    FirstIsUnique(r.store, k, ByEmail(email));
    FirstIsUnique(r.store, i, ByEmail(email));
    VerifyCodeRoute.VerifyDecision(r.store, username, r.mail.value.code, t, VerifyCodeRoute.PlainDecode, i);
  }

  /** The correction keeps the route's choice of mailing the submitted
      username: a retry under a different name stores the code on the
      account found by email, while verification looks the code up under
      the mailed name, which no account holds. */
  lemma FixedRetryUnderOtherName()
    ensures var bob := Abandoned.(username := "bob");
      var r := SignUpRoute.RegisterFixed([bob], "alice", "alice@x.com", "secret1", Retry, NewAccountDefaults);
      && r.response.success
      && r.mail == Some(SignUpRoute.Mail("alice@x.com", "alice", r.store[0].verifyCode))
      && r.store[0].username == "bob"
      && VerifyCodeRoute.Verify(r.store, "alice", r.mail.value.code, Retry.now, VerifyCodeRoute.PlainDecode).response
           == Response(404, false, VerifyCodeRoute.NotFound)
  {
  }
}

=== FILE: scenario.dfy ===
/** A whole life cycle through the routes: sign up, verify with the mailed
    code, receive a message, switch acceptance off, be refused the next
    one. The acceptance switch belongs to a route outside this model and
    appears here as the field write it performs. */
module Scenario {
  import opened Wrappers
  import opened Accounts
  import SignUpRoute
  import VerifyCodeRoute
  import SendMessageRoute

  lemma {:induction false} SignUpVerifyReceive(env: SignUpRoute.Env, t: int)
    requires SignUpRoute.ValidEnv(env) && env.insertOk && env.mailReply.success
    requires env.now <= t <= env.now + SignUpRoute.CodeLifetimeMs
    ensures
      var defaults := SignUpRoute.Defaults(false, true);
      var signUp := SignUpRoute.Register([], "alice", "alice@x.com", "secret1", env, defaults);
      var verified := VerifyCodeRoute.Verify(signUp.store, "alice", signUp.mail.value.code, t, VerifyCodeRoute.PlainDecode);
      var sent := SendMessageRoute.Send(verified.store, "alice", "hello", t);
      var closed := sent.store[0 := sent.store[0].(isAcceptingMessages := false)];
      var refused := SendMessageRoute.Send(closed, "alice", "hi", t);
      && signUp.mail.Some?
      && verified.response.success
      && verified.store[0].isVerified
      && sent.response.success
      && sent.store[0].messages == [Message("hello", t)]
      && refused.response.status == 403
      && refused.store[0].messages == [Message("hello", t)]
  {
    var defaults := SignUpRoute.Defaults(false, true);
    var signUp := SignUpRoute.Register([], "alice", "alice@x.com", "secret1", env, defaults);
    assert signUp.store == [SignUpRoute.NewAccount("alice", "alice@x.com", env, defaults)];
    VerifyCodeRoute.VerifyDecision(signUp.store, "alice", signUp.mail.value.code, t, VerifyCodeRoute.PlainDecode, 0);
    var verified := VerifyCodeRoute.Verify(signUp.store, "alice", signUp.mail.value.code, t, VerifyCodeRoute.PlainDecode);
    SendMessageRoute.SendAppendsOne(verified.store, "alice", "hello", t, 0);
  }
}

=== FILE: send_message_route.dfy ===
/** `POST /api/send-message`: append an anonymous message to the mailbox of
    the first account holding the username. The route checks neither the
    content's length nor whether the account is verified: only that the
    account exists and accepts messages, in that order. */
module SendMessageRoute {
  import opened Accounts

  const NotFound := "user not found"
  const NotAccepting := "user not accepting message"
  const Sent := "message sent successfully"

  function Send(s: Store, username: string, content: string, now: int): (r: Outcome)
    ensures !Holds(s, ByUsername(username)) ==>
      r == Outcome(Response(404, false, NotFound), s)
    ensures forall i :: IsFirst(s, i, ByUsername(username)) && !s[i].isAcceptingMessages ==>
      r == Outcome(Response(403, false, NotAccepting), s)
    ensures r.response.success <==>
      exists i :: IsFirst(s, i, ByUsername(username)) && s[i].isAcceptingMessages
    ensures r.response.success ==> r.response == Response(200, true, Sent)
    // on success exactly the first holder's mailbox grows by the new message at its end
    ensures r.response.success ==>
      exists i :: && IsFirst(s, i, ByUsername(username))
                  && r.store == s[i := s[i].(messages := s[i].messages + [Message(content, now)])]
    ensures !r.response.success ==> r.store == s
  {
    match FindOne(s, ByUsername(username))
    case None => Outcome(Response(404, false, NotFound), s)
    case Some(i) =>
      if !s[i].isAcceptingMessages then
        Outcome(Response(403, false, NotAccepting), s)
      else
        var user := s[i].(messages := s[i].messages + [Message(content, now)]);
        Outcome(Response(200, true, Sent), s[i := user])
  }

  /** A successful send keeps the old mailbox as a prefix, adds exactly one
      message carrying the content as given and the current time, and
      changes no other field and no other account. */
  lemma SendAppendsOne(s: Store, username: string, content: string, now: int, i: int)
    requires IsFirst(s, i, ByUsername(username)) && s[i].isAcceptingMessages
    ensures var s' := Send(s, username, content, now).store;
      && |s'| == |s|
      && |s'[i].messages| == |s[i].messages| + 1
      && s[i].messages <= s'[i].messages
      && s'[i].messages[|s'[i].messages| - 1] == Message(content, now)
      && s'[i] == s[i].(messages := s'[i].messages)
      && forall j :: 0 <= j < |s| && j != i ==> s'[j] == s[j]
  {
    FirstIsUnique(s, i, ByUsername(username));
  }

  /** Neither the length of the content nor the account's verification
      status matters: an unverified account that accepts messages receives
      a 451-character message. */
  lemma SendIgnoresLengthAndVerification(u: User, content: string, now: int)
    requires !u.isVerified && u.isAcceptingMessages && |content| == 451
    ensures Send([u], u.username, content, now).response.success
  {
    assert IsFirst([u], 0, ByUsername(u.username));
  }
}

=== FILE: sign_up_route.dfy ===
/** `POST /api/sign-up`. The route itself does not run `signUpSchema`; it
    takes username, email and password as sent.

    1. A VERIFIED account that already holds the username ends the request:
       400 "Username is already taken.".
    2. The first account holding the email, verified or not, is looked up.
       If it is verified: 400 "User already exists with this email.".
       If it is not, its password, code and expiry are overwritten and
       saved ("reclaim"), and execution falls through to step 3.
    3. A new account is inserted with a freshly hashed password, a freshly
       drawn code and an expiry one hour ahead, and the new code is mailed.

    Everything the route draws from its environment is a parameter: the
    clock, the two `Math.random()` draws, the two bcrypt hashes, whether
    the insert throws, and what the mailer answers. */
module SignUpRoute {
  import opened Wrappers
  import opened Accounts
  import Decimal
  import SignUpSchema

  /** `60 * 60 * 1000`: codes live for one hour. */
  const CodeLifetimeMs := 3_600_000

  const UsernameTaken := "Username is already taken."
  const EmailTaken := "User already exists with this email."
  const Registered := "User registered successfully."
  const RegisterFailed := "Failed to register user."

  /** A value `Math.random()` can return. */
  predicate IsRandomDraw(r: real) {
    0.0 <= r < 1.0
  }

  /** `Math.floor(100000 + Math.random() * 900000)`. */
  function CodeFromDraw(r: real): (code: nat)
    requires IsRandomDraw(r)
    ensures 100_000 <= code <= 999_999
  {
    (100_000.0 + r * 900_000.0).Floor
  }

  /** Six decimal digits reading as a number in [100000, 999999]. */
  predicate IsSixDigitCode(code: string) {
    && |code| == 6
    && (forall k :: 0 <= k < |code| ==> Decimal.IsDigit(code[k]))
    && 100_000 <= Decimal.Parse(code) <= 999_999
  }

  /** The stored code: the decimal string of the drawn number. */
  function CodeString(r: real): (code: string)
    requires IsRandomDraw(r)
    ensures |code| == 6
    ensures forall k :: 0 <= k < 6 ==> Decimal.IsDigit(code[k])
    ensures code[0] != '0'
    ensures Decimal.Parse(code) == CodeFromDraw(r)
  {
    var n := CodeFromDraw(r);
    assert Decimal.Pow10(5) == 100_000 by {
      assert Decimal.Pow10(2) == 100;
      assert Decimal.Pow10(4) == 10_000;
    }
    assert Decimal.Pow10(6) == 1_000_000;
    Decimal.LengthOfToString(n, 6);
    Decimal.ParseToString(n);
    Decimal.ToString(n)
  }

  /** Schema defaults the store fills into a new account; the `User` model
      is not part of this model, so they are parameters. */
  datatype Defaults = Defaults(isVerified: bool, isAcceptingMessages: bool)

  /** What `sendVerificationEmail` answers. */
  datatype MailReply = MailReply(success: bool, message: string)

  /** The arguments `sendVerificationEmail` is called with. */
  datatype Mail = Mail(to: string, username: string, code: string)

  /** The request's environment: the clock (one instant for the whole
      request), the random draw and password hash of the reclaim branch and
      of the new account, whether saving the new account succeeds, and the
      mailer's reply. */
  datatype Env = Env(
    now: int,
    reclaimDraw: real,
    newDraw: real,
    reclaimHash: string,
    newHash: string,
    insertOk: bool,
    mailReply: MailReply)

  predicate ValidEnv(env: Env) {
    IsRandomDraw(env.reclaimDraw) && IsRandomDraw(env.newDraw)
  }

  /** The route's answer, the store it leaves and the mail it sends, if any. */
  datatype SignUpOutcome = SignUpOutcome(response: Response, store: Store, mail: Option<Mail>)

  /** The document `new UserModel({...})` creates: the submitted identity,
      a six-digit code that lives for one hour, the store's default flags
      and an empty mailbox. */
  function NewAccount(username: string, email: string, env: Env, defaults: Defaults): (u: User)
    requires ValidEnv(env)
    ensures u.username == username && u.email == email
    ensures IsSixDigitCode(u.verifyCode)
    ensures u.verifyCodeExpiry == env.now + CodeLifetimeMs
    ensures u.isVerified == defaults.isVerified
    ensures u.isAcceptingMessages == defaults.isAcceptingMessages
    ensures u.messages == []
  {
    User(username, email, env.newHash, CodeString(env.newDraw), env.now + 60 * 60 * 1000,
         defaults.isVerified, defaults.isAcceptingMessages, [])
  }

  /** Step 3: insert the new account and mail its code; `s` is the store
      after the optional reclaim. */
  function Insert(s: Store, username: string, email: string, env: Env, defaults: Defaults): (r: SignUpOutcome)
    requires ValidEnv(env)
    ensures !env.insertOk ==> r.store == s && r.mail == None && r.response.status == 500
    ensures env.insertOk ==>
      && r.store == s + [NewAccount(username, email, env, defaults)]
      && r.mail == Some(Mail(email, username, CodeString(env.newDraw)))
      && (r.response.success <==> env.mailReply.success)
  {
    if !env.insertOk then
      SignUpOutcome(Response(500, false, RegisterFailed), s, None)
    else
      var stored := s + [NewAccount(username, email, env, defaults)];
      var code := CodeString(env.newDraw);
      if !env.mailReply.success then
        SignUpOutcome(Response(500, false, env.mailReply.message), stored, Some(Mail(email, username, code)))
      else
        SignUpOutcome(Response(201, true, Registered), stored, Some(Mail(email, username, code)))
  }

  /** The reclaim overwrite of an unverified account found by email: a new
      six-digit code that lives for one hour, and a new password hash;
      identity, flags and mailbox stay as they were. */
  function Reclaimed(u: User, env: Env): (u': User)
    requires ValidEnv(env)
    ensures u' == u.(password := u'.password, verifyCode := u'.verifyCode,
                     verifyCodeExpiry := u'.verifyCodeExpiry)
    ensures IsSixDigitCode(u'.verifyCode)
    ensures u'.verifyCodeExpiry == env.now + CodeLifetimeMs
  {
    u.(password := env.reclaimHash,
       verifyCode := CodeString(env.reclaimDraw),
       verifyCodeExpiry := env.now + 60 * 60 * 1000)
  }

  /** The request gets past both conflict checks: no verified account holds
      the username, and the first account holding the email, if any, is
      unverified. */
  ghost predicate PassesChecks(s: Store, username: string, email: string) {
    && !Holds(s, VerifiedByUsername(username))
    && forall i :: IsFirst(s, i, ByEmail(email)) ==> !s[i].isVerified
  }

  /** The route as written, reclaim branch falling through to the insert. */
  function Register(s: Store, username: string, email: string, password: string, env: Env, defaults: Defaults): (r: SignUpOutcome)
    requires ValidEnv(env)
    // a verified holder of the username stops the request, before the email is looked at
    ensures Holds(s, VerifiedByUsername(username)) ==>
      r == SignUpOutcome(Response(400, false, UsernameTaken), s, None)
    // otherwise a verified first holder of the email stops it
    ensures !Holds(s, VerifiedByUsername(username)) ==>
      ((exists i :: IsFirst(s, i, ByEmail(email)) && s[i].isVerified) <==>
       r == SignUpOutcome(Response(400, false, EmailTaken), s, None))
    // a mail, when one is sent, carries the code of the account appended last
    ensures r.mail.Some? ==>
      && |r.store| == |s| + 1
      && r.store[|s|] == NewAccount(username, email, env, defaults)
      && r.mail == Some(Mail(email, username, r.store[|s|].verifyCode))
      && r.mail.value.code == CodeString(env.newDraw)
    // past both checks: the save decides whether an account is added and a
    // mail sent, and the mailer's reply decides the answer
    ensures PassesChecks(s, username, email) && !env.insertOk ==>
      r.response == Response(500, false, RegisterFailed) && r.mail.None? && |r.store| == |s|
    ensures PassesChecks(s, username, email) && env.insertOk ==>
      && r.mail == Some(Mail(email, username, CodeString(env.newDraw)))
      && r.store[|s|] == NewAccount(username, email, env, defaults)
      && r.response == (if env.mailReply.success then Response(201, true, Registered)
                        else Response(500, false, env.mailReply.message))
    // an unknown email only ever gains the new account
    ensures PassesChecks(s, username, email) && !Holds(s, ByEmail(email)) ==>
      r.store == s + (if env.insertOk then [NewAccount(username, email, env, defaults)] else [])
    // an unverified first holder of the email is reclaimed first
    ensures forall i :: PassesChecks(s, username, email) && IsFirst(s, i, ByEmail(email)) ==>
      r.store[..|s|] == s[i := Reclaimed(s[i], env)]
    ensures r.response.status in {201, 400, 500}
    ensures |s| <= |r.store| <= |s| + 1
  {
    if FindOne(s, VerifiedByUsername(username)).Some? then
      SignUpOutcome(Response(400, false, UsernameTaken), s, None)
    else
      match FindOne(s, ByEmail(email))
      case Some(i) =>
        if s[i].isVerified then
          SignUpOutcome(Response(400, false, EmailTaken), s, None)
        else
          Insert(s[i := Reclaimed(s[i], env)], username, email, env, defaults)
      case None =>
        Insert(s, username, email, env, defaults)
  }

  /** The intended route: the reclaim branch mails the code it has just
      stored and ends there, and only an unknown email creates an account.
      One code is drawn per request. */
  function RegisterFixed(s: Store, username: string, email: string, password: string, env: Env, defaults: Defaults): (r: SignUpOutcome)
    requires ValidEnv(env)
    ensures Holds(s, VerifiedByUsername(username)) ==>
      r == SignUpOutcome(Response(400, false, UsernameTaken), s, None)
    ensures !Holds(s, VerifiedByUsername(username)) ==>
      ((exists i :: IsFirst(s, i, ByEmail(email)) && s[i].isVerified) <==>
       r == SignUpOutcome(Response(400, false, EmailTaken), s, None))
    // an unverified first holder of the email gets a fresh code, which is
    // mailed; no account is added and no other account changes
    ensures forall i :: PassesChecks(s, username, email) && IsFirst(s, i, ByEmail(email)) ==>
      && |r.store| == |s|
      && r.store[i] == s[i].(password := r.store[i].password, verifyCode := r.store[i].verifyCode,
                             verifyCodeExpiry := r.store[i].verifyCodeExpiry)
      && IsSixDigitCode(r.store[i].verifyCode)
      && r.store[i].verifyCodeExpiry == env.now + CodeLifetimeMs
      && (forall j :: 0 <= j < |s| && j != i ==> r.store[j] == s[j])
      && r.mail == Some(Mail(email, username, r.store[i].verifyCode))
      && r.response == (if env.mailReply.success then Response(201, true, Registered)
                        else Response(500, false, env.mailReply.message))
    // an unknown email is registered as a new account, as in the route as written
    ensures PassesChecks(s, username, email) && !Holds(s, ByEmail(email)) ==>
      && r.store == s + (if env.insertOk then [NewAccount(username, email, env, defaults)] else [])
      && r.mail == (if env.insertOk then Some(Mail(email, username, CodeString(env.newDraw))) else None)
      && r.response == (if !env.insertOk then Response(500, false, RegisterFailed)
                        else if env.mailReply.success then Response(201, true, Registered)
                        else Response(500, false, env.mailReply.message))
    ensures r.mail.Some? ==>
      && r.mail.value.to == email
      && r.mail.value.code == CodeString(env.newDraw)
    // the account the mail is about is the first one holding the email
    ensures r.mail.Some? ==>
      exists i :: IsFirst(r.store, i, ByEmail(email))
                  && r.store[i].verifyCode == r.mail.value.code
                  && r.store[i].verifyCodeExpiry == env.now + CodeLifetimeMs
  {
    if FindOne(s, VerifiedByUsername(username)).Some? then
      SignUpOutcome(Response(400, false, UsernameTaken), s, None)
    else
      match FindOne(s, ByEmail(email))
      case Some(i) =>
        if s[i].isVerified then
          SignUpOutcome(Response(400, false, EmailTaken), s, None)
        else
          var code := CodeString(env.newDraw);
          var s' := s[i := s[i].(password := env.newHash, verifyCode := code,
                                 verifyCodeExpiry := env.now + 60 * 60 * 1000)];
          assert IsFirst(s', i, ByEmail(email));
          var mail := Some(Mail(email, username, code));
          if env.mailReply.success then
            SignUpOutcome(Response(201, true, Registered), s', mail)
          else
            SignUpOutcome(Response(500, false, env.mailReply.message), s', mail)
      case None =>
        var r := Insert(s, username, email, env, defaults);
        assert r.mail.Some? ==> IsFirst(r.store, |s|, ByEmail(email));
        r
  }

  /** Reclaim then insert: when the first account holding the email is
      unverified, only its password, code and expiry are overwritten, and a
      second account with the same email is inserted and its code, drawn
      independently, is the one mailed. */
  lemma ReclaimFallsThrough(s: Store, username: string, email: string, password: string,
                            env: Env, defaults: Defaults, i: int)
    requires ValidEnv(env) && env.insertOk
    requires !Holds(s, VerifiedByUsername(username))
    requires IsFirst(s, i, ByEmail(email)) && !s[i].isVerified
    ensures var r := Register(s, username, email, password, env, defaults);
      && r.store == s[i := Reclaimed(s[i], env)] + [NewAccount(username, email, env, defaults)]
      && r.store[i].email == r.store[|s|].email == email
      && r.store[i].verifyCode == CodeString(env.reclaimDraw)
      && r.mail == Some(Mail(email, username, CodeString(env.newDraw)))
  {
    FirstIsUnique(s, i, ByEmail(email));
  }

  /** A failing mailer turns the answer into a 500 carrying the mailer's
      message, but the new account has already been saved. */
  lemma MailFailureKeepsAccount(s: Store, username: string, email: string, password: string,
                                env: Env, defaults: Defaults)
    requires ValidEnv(env) && env.insertOk && !env.mailReply.success
    requires !Holds(s, VerifiedByUsername(username))
    requires forall i :: IsFirst(s, i, ByEmail(email)) ==> !s[i].isVerified
    ensures var r := Register(s, username, email, password, env, defaults);
      && r.response == Response(500, false, env.mailReply.message)
      && |r.store| == |s| + 1
      && r.store[|s|] == NewAccount(username, email, env, defaults)
  {
  }

  /** Every account sign-up writes, reclaimed or new, carries a six-digit
      code and an expiry exactly one hour after the request; the only
      existing account that can change is the unverified first holder of
      the email. */
  lemma WrittenCodesAreFresh(s: Store, username: string, email: string, password: string,
                             env: Env, defaults: Defaults)
    requires ValidEnv(env)
    ensures var s' := Register(s, username, email, password, env, defaults).store;
      forall j :: 0 <= j < |s'| && (j >= |s| || s'[j] != s[j]) ==>
        && IsSixDigitCode(s'[j].verifyCode)
        && s'[j].verifyCodeExpiry == env.now + CodeLifetimeMs
    ensures var s' := Register(s, username, email, password, env, defaults).store;
      forall j :: 0 <= j < |s| && s'[j] != s[j] ==> IsFirst(s, j, ByEmail(email)) && !s[j].isVerified
  {
  }

  /** The route does not apply the sign-up schema: a one-character username
      and a one-character password, both of which the schema rejects, are
      registered. */
  lemma RouteSkipsSchema(env: Env, defaults: Defaults)
    requires ValidEnv(env) && env.insertOk && env.mailReply.success
    ensures !SignUpSchema.IsValidUsername("a") && !SignUpSchema.IsValidPassword("p")
    ensures Register([], "a", "a@b.c", "p", env, defaults).response.success
  {
  }
}

=== FILE: sign_up_schema.dfy ===
/** The zod schemas of the sign-up form: `usernameValidation` (also used by
    the username-availability route) and `signUpSchema`. zod runs every
    check of a string field and reports each failed one, in declaration
    order; a value is accepted exactly when no check fails. */
module SignUpSchema {

  const MinUsernameLength := 2
  const MaxUsernameLength := 20
  const MinPasswordLength := 6

  const MinLengthError := "Min 2 chars"
  const MaxLengthError := "Max 20 chars"
  const PatternError := "Special characters are not allowed"
  const EmailError := "Invalid email address"
  const PasswordError := "Password must be atleast 6 characters"

  /** The class `[a-zA-Z0-9_]`. */
  predicate IsUsernameChar(c: char) {
    || 'a' <= c <= 'z'
    || 'A' <= c <= 'Z'
    || '0' <= c <= '9'
    || c == '_'
  }

  /** The regular expression `^[a-zA-Z0-9_]+$`: one or more characters of
      the class and nothing else. */
  predicate MatchesUsernamePattern(s: string) {
    |s| >= 1 && forall k :: 0 <= k < |s| ==> IsUsernameChar(s[k])
  }

  /** The position of a username check in the schema's declaration order:
      `.min`, then `.max`, then `.regex`. */
  function CheckRank(message: string): nat {
    if message == MinLengthError then 0
    else if message == MaxLengthError then 1
    else if message == PatternError then 2
    else 3
  }

  /** The messages `usernameValidation` reports for `s`: the `.min`,
      `.max` and `.regex` checks, each contributing its message when it
      fails. */
  function UsernameErrors(s: string): (errs: seq<string>)
    ensures errs == [] <==>
      (MinUsernameLength <= |s| <= MaxUsernameLength
       && forall k :: 0 <= k < |s| ==> IsUsernameChar(s[k]))
    ensures MinLengthError in errs <==> |s| < MinUsernameLength
    ensures MaxLengthError in errs <==> |s| > MaxUsernameLength
    ensures PatternError in errs <==> (|s| == 0 || exists k :: 0 <= k < |s| && !IsUsernameChar(s[k]))
    // nothing but these messages, each once, in declaration order
    ensures forall k :: 0 <= k < |errs| ==> errs[k] in {MinLengthError, MaxLengthError, PatternError}
    ensures forall a, b :: 0 <= a < b < |errs| ==> CheckRank(errs[a]) < CheckRank(errs[b])
    ensures |errs| <= 3
  {
    (if |s| < MinUsernameLength then [MinLengthError] else [])
    + (if |s| > MaxUsernameLength then [MaxLengthError] else [])
    + (if !MatchesUsernamePattern(s) then [PatternError] else [])
  }

  predicate IsValidUsername(s: string) {
    UsernameErrors(s) == []
  }

  /** The messages of the password field's single `.min(6)` check. */
  function PasswordErrors(p: string): (errs: seq<string>)
    ensures errs == [] <==> |p| >= MinPasswordLength
    ensures errs != [] ==> errs == [PasswordError]
  {
    if |p| < MinPasswordLength then [PasswordError] else []
  }

  predicate IsValidPassword(p: string) {
    PasswordErrors(p) == []
  }

  /** One failed check of an object schema: the field it belongs to and its
      message. */
  datatype Issue = Issue(field: string, message: string)

  /** The issues of one field: its messages, each filed under its name. */
  function FieldIssues(field: string, messages: seq<string>): (issues: seq<Issue>)
    ensures |issues| == |messages|
    ensures forall k :: 0 <= k < |issues| ==> issues[k] == Issue(field, messages[k])
  {
    if messages == [] then [] else [Issue(field, messages[0])] + FieldIssues(field, messages[1..])
  }

  /** The issues `signUpSchema` reports, field by field in declaration
      order. zod's `.email()` pattern is library behaviour, so it enters as
      the predicate `isEmail`. */
  function SignUpIssues(username: string, email: string, password: string, isEmail: string -> bool): (issues: seq<Issue>)
    ensures issues == [] <==>
      (IsValidUsername(username) && isEmail(email) && IsValidPassword(password))
    ensures forall k :: 0 <= k < |issues| ==>
      issues[k].field in {"username", "email", "password"}
    // a field is named exactly when it fails, and only with its own messages
    ensures (exists k :: 0 <= k < |issues| && issues[k].field == "username") <==> !IsValidUsername(username)
    ensures (exists k :: 0 <= k < |issues| && issues[k].field == "email") <==> !isEmail(email)
    ensures (exists k :: 0 <= k < |issues| && issues[k].field == "password") <==> !IsValidPassword(password)
    ensures forall k :: 0 <= k < |issues| && issues[k].field == "username" ==>
      issues[k].message in UsernameErrors(username)
    ensures forall k :: 0 <= k < |issues| && issues[k].field == "email" ==> issues[k].message == EmailError
    ensures forall k :: 0 <= k < |issues| && issues[k].field == "password" ==> issues[k].message == PasswordError
    ensures |issues| == |UsernameErrors(username)| + (if isEmail(email) then 0 else 1) + |PasswordErrors(password)|
  {
    var u := FieldIssues("username", UsernameErrors(username));
    var e := if isEmail(email) then [] else [Issue("email", EmailError)];
    var p := FieldIssues("password", PasswordErrors(password));
    IssuesOfErrors(UsernameErrors(username), isEmail(email), PasswordErrors(password));
    u + e + p
  }

  /** Three blocks of issues, each filed under its own field: an issue of
      the joined list names a field exactly when it comes from that field's
      block. */
  lemma BlocksByField(u: seq<Issue>, e: seq<Issue>, p: seq<Issue>, fu: string, fe: string, fp: string)
    requires fu != fe && fu != fp && fe != fp
    requires forall k :: 0 <= k < |u| ==> u[k].field == fu
    requires forall k :: 0 <= k < |e| ==> e[k].field == fe
    requires forall k :: 0 <= k < |p| ==> p[k].field == fp
    ensures forall k :: 0 <= k < |u + e + p| ==> (u + e + p)[k].field in {fu, fe, fp}
    ensures (exists k :: 0 <= k < |u + e + p| && (u + e + p)[k].field == fu) <==> u != []
    ensures (exists k :: 0 <= k < |u + e + p| && (u + e + p)[k].field == fe) <==> e != []
    ensures (exists k :: 0 <= k < |u + e + p| && (u + e + p)[k].field == fp) <==> p != []
    ensures forall k :: 0 <= k < |u + e + p| && (u + e + p)[k].field == fu ==> k < |u| && (u + e + p)[k] == u[k]
    ensures forall k :: 0 <= k < |u + e + p| && (u + e + p)[k].field == fe ==>
      |u| <= k < |u| + |e| && (u + e + p)[k] == e[k - |u|]
    ensures forall k :: 0 <= k < |u + e + p| && (u + e + p)[k].field == fp ==>
      |u| + |e| <= k && (u + e + p)[k] == p[k - |u| - |e|]
  {
    var s := u + e + p;
    forall k | 0 <= k < |s|
      ensures k < |u| ==> s[k] == u[k]
      ensures |u| <= k < |u| + |e| ==> s[k] == e[k - |u|]
      ensures |u| + |e| <= k ==> s[k] == p[k - |u| - |e|]
    {
    }
    if u != [] { assert s[0] == u[0]; }
    if e != [] { assert s[|u|] == e[0]; }
    if p != [] { assert s[|u| + |e|] == p[0]; }
  }

  /** The issues assembled from the username messages `ue`, the email
      verdict and the password messages `pe`: each field is named exactly
      when it has messages, and only with them. */
  lemma IssuesOfErrors(ue: seq<string>, emailOk: bool, pe: seq<string>)
    ensures var issues := FieldIssues("username", ue)
                          + (if emailOk then [] else [Issue("email", EmailError)])
                          + FieldIssues("password", pe);
      && (forall k :: 0 <= k < |issues| ==> issues[k].field in {"username", "email", "password"})
      && ((exists k :: 0 <= k < |issues| && issues[k].field == "username") <==> ue != [])
      && ((exists k :: 0 <= k < |issues| && issues[k].field == "email") <==> !emailOk)
      && ((exists k :: 0 <= k < |issues| && issues[k].field == "password") <==> pe != [])
      && (forall k :: 0 <= k < |issues| && issues[k].field == "username" ==> issues[k].message in ue)
      && (forall k :: 0 <= k < |issues| && issues[k].field == "email" ==> issues[k].message == EmailError)
      && (forall k :: 0 <= k < |issues| && issues[k].field == "password" ==> issues[k].message in pe)
  {
    var u := FieldIssues("username", ue);
    var e := if emailOk then [] else [Issue("email", EmailError)];
    var p := FieldIssues("password", pe);
    BlocksByField(u, e, p, "username", "email", "password");
  }

  predicate IsValidSignUp(username: string, email: string, password: string, isEmail: string -> bool) {
    SignUpIssues(username, email, password, isEmail) == []
  }

  /** A username is valid exactly when it has 2 to 20 characters, all from
      `[a-zA-Z0-9_]`. */
  lemma UsernameValidIff(s: string)
    ensures IsValidUsername(s) <==>
      (2 <= |s| <= 20 && forall k :: 0 <= k < |s| ==> IsUsernameChar(s[k]))
  {
  }

  /** The length bounds are inclusive: one character short or one over is
      rejected, with the matching message. */
  lemma UsernameLengthBoundaries(s: string)
    ensures |s| == 1 ==> !IsValidUsername(s) && MinLengthError in UsernameErrors(s)
    ensures |s| == 21 ==> !IsValidUsername(s) && MaxLengthError in UsernameErrors(s)
  {
  }

  /** One character outside the class rejects a username of any length. */
  lemma ForeignCharRejected(s: string, k: int)
    requires 0 <= k < |s| && !IsUsernameChar(s[k])
    ensures !IsValidUsername(s)
    ensures PatternError in UsernameErrors(s)
  {
  }

  /** A password is valid exactly when it has at least six characters. */
  lemma PasswordValidIff(p: string)
    ensures IsValidPassword(p) <==> |p| >= 6
  {
  }

  /** The sign-up object is valid exactly when each of its three fields is. */
  lemma SignUpValidIff(username: string, email: string, password: string, isEmail: string -> bool)
    ensures IsValidSignUp(username, email, password, isEmail) <==>
      IsValidUsername(username) && isEmail(email) && |password| >= 6
  {
  }
}

=== FILE: store_invariants.dfy ===
/** Properties that hold across the routes: what the store keeps true from
    request to request, how the availability check relates to sign-up, and
    the reclaim defect of the sign-up route next to its corrected form. */
module StoreInvariants {
  import opened Wrappers
  import opened Accounts
  import SignUpSchema
  import SignUpRoute
  import VerifyCodeRoute
  import SendMessageRoute
  import CheckUsernameRoute

  /** Among the accounts sharing a username, only the first can be
      verified. Verification always acts on the first holder, so a later
      holder never gets there. */
  ghost predicate OnlyFirstHolderVerified(s: Store) {
    forall i, j :: 0 <= i < j < |s| && s[i].username == s[j].username ==> !s[j].isVerified
  }

  /** Usernames are unique among verified accounts. */
  ghost predicate VerifiedUsernamesUnique(s: Store) {
    forall i, j :: 0 <= i < |s| && 0 <= j < |s| && i != j && s[i].isVerified && s[j].isVerified ==>
      s[i].username != s[j].username
  }

  ghost predicate EmailsUnique(s: Store) {
    forall i, j :: 0 <= i < |s| && 0 <= j < |s| && i != j ==> s[i].email != s[j].email
  }

  lemma OnlyFirstHolderVerifiedGivesUniqueness(s: Store)
    requires OnlyFirstHolderVerified(s)
    ensures VerifiedUsernamesUnique(s)
  {
  }

  /** A step that keeps every username and never verifies an account other
      than the first holder of its username keeps the invariant. */
  lemma {:induction false} PointwiseStepKeepsInvariant(s: Store, s': Store)
    requires OnlyFirstHolderVerified(s)
    requires |s| <= |s'|
    requires forall j :: 0 <= j < |s| ==> s'[j].username == s[j].username
    requires forall j :: 0 <= j < |s'| && s'[j].isVerified && (j >= |s| || !s[j].isVerified) ==>
      forall k :: 0 <= k < j ==> s'[k].username != s'[j].username
    ensures OnlyFirstHolderVerified(s')
  {
  }

  /** Sign-up keeps the invariant as long as new accounts start unverified. */
  lemma RegisterKeepsInvariant(s: Store, username: string, email: string, password: string,
                               env: SignUpRoute.Env, defaults: SignUpRoute.Defaults)
    requires SignUpRoute.ValidEnv(env) && !defaults.isVerified
    requires OnlyFirstHolderVerified(s)
    ensures OnlyFirstHolderVerified(SignUpRoute.Register(s, username, email, password, env, defaults).store)
  {
    var s' := SignUpRoute.Register(s, username, email, password, env, defaults).store;
    RegisterTouchesOnlyUnverified(s, username, email, password, env, defaults);
    PointwiseStepKeepsInvariant(s, s');
  }

  /** What sign-up does to the accounts already in the store: a verified
      account is left exactly as it was, an unverified one keeps its
      username, email, flags and mailbox, and at most one account is added,
      unverified unless the store's default says otherwise. */
  lemma RegisterTouchesOnlyUnverified(s: Store, username: string, email: string, password: string,
                                      env: SignUpRoute.Env, defaults: SignUpRoute.Defaults)
    requires SignUpRoute.ValidEnv(env)
    ensures var s' := SignUpRoute.Register(s, username, email, password, env, defaults).store;
      && |s| <= |s'| <= |s| + 1
      && (forall j :: 0 <= j < |s| && s[j].isVerified ==> s'[j] == s[j])
      && (forall j :: 0 <= j < |s| ==>
            s'[j] == s[j].(password := s'[j].password, verifyCode := s'[j].verifyCode,
                           verifyCodeExpiry := s'[j].verifyCodeExpiry))
      && (|s'| == |s| + 1 ==> s'[|s|].isVerified == defaults.isVerified)
  {
  }

  lemma RegisterFixedKeepsInvariant(s: Store, username: string, email: string, password: string,
                                    env: SignUpRoute.Env, defaults: SignUpRoute.Defaults)
    requires SignUpRoute.ValidEnv(env) && !defaults.isVerified
    requires OnlyFirstHolderVerified(s)
    ensures OnlyFirstHolderVerified(SignUpRoute.RegisterFixed(s, username, email, password, env, defaults).store)
  {
    var s' := SignUpRoute.RegisterFixed(s, username, email, password, env, defaults).store;
    if FindOne(s, VerifiedByUsername(username)).None? {
      match FindOne(s, ByEmail(email))
      case Some(i) =>
        if !s[i].isVerified {
          assert |s'| == |s| && forall j :: 0 <= j < |s| && j != i ==> s'[j] == s[j];
          assert s'[i].username == s[i].username && s'[i].isVerified == s[i].isVerified;
        }
      case None =>
        assert s'[..|s|] == s;
        assert |s'| == |s| + 1 ==> !s'[|s|].isVerified;
    }
    assert |s| <= |s'|;
    assert forall j :: 0 <= j < |s| ==> s'[j].username == s[j].username && s'[j].isVerified == s[j].isVerified;
    PointwiseStepKeepsInvariant(s, s');
  }

  lemma VerifyKeepsInvariant(s: Store, username: string, code: string, now: int, decode: string -> Option<string>)
    requires OnlyFirstHolderVerified(s)
    ensures OnlyFirstHolderVerified(VerifyCodeRoute.Verify(s, username, code, now, decode).store)
  {
    var r := VerifyCodeRoute.Verify(s, username, code, now, decode);
    if r.response.success {
      var i :| IsFirst(s, i, ByUsername(decode(username).value))
               && r.store == s[i := s[i].(isVerified := true)];
      PointwiseStepKeepsInvariant(s, r.store);
    }
  }

  lemma SendKeepsInvariant(s: Store, username: string, content: string, now: int)
    requires OnlyFirstHolderVerified(s)
    ensures OnlyFirstHolderVerified(SendMessageRoute.Send(s, username, content, now).store)
  {
    var r := SendMessageRoute.Send(s, username, content, now);
    if r.response.success {
      var i :| IsFirst(s, i, ByUsername(username))
               && r.store == s[i := s[i].(messages := s[i].messages + [Message(content, now)])];
      assert forall j :: 0 <= j < |s| ==>
        r.store[j].username == s[j].username && r.store[j].isVerified == s[j].isVerified;
    }
  }

  /** For a valid username, the availability check reports it available
      exactly when sign-up would get past its username check. */
  lemma CheckAgreesWithRegister(s: Store, username: string, email: string, password: string,
                                env: SignUpRoute.Env, defaults: SignUpRoute.Defaults)
    requires SignUpRoute.ValidEnv(env)
    requires SignUpSchema.IsValidUsername(username)
    ensures CheckUsernameRoute.Check(s, Some(username)).success <==>
      SignUpRoute.Register(s, username, email, password, env, defaults).response
        != Response(400, false, SignUpRoute.UsernameTaken)
  {
  }
}

=== FILE: verify_code_route.dfy ===
/** `POST /api/verify-code`: the submitted code is checked against the
    first account holding the (URL-decoded) username, verified or not.
    Outcomes, in this order: match and not expired -> the account becomes
    verified; expired -> "Code has expired", whatever the code; otherwise
    "The code is incorrect". An expiry equal to the current instant is not
    expired: the test is `expiry < now`. */
module VerifyCodeRoute {
  import opened Wrappers
  import opened Accounts

  const NotFound := "User not found"
  const Verified := "User verified successfully"
  const Expired := "Code has expired. Please sign up again to receive a new code."
  const Incorrect := "The code is incorrect. Please try again."
  const DecodeFailed := "Error verifying code"

  /** `decodeURIComponent` on a username with no percent-escapes: the name
      itself. */
  function PlainDecode(name: string): Option<string> {
    Some(name)
  }

  /** `new Date(expiry) < new Date()`. */
  predicate IsExpired(u: User, now: int) {
    u.verifyCodeExpiry < now
  }

  /** `decode` stands for `decodeURIComponent`; `None` is the URIError it
      throws on a malformed escape, which the route's catch turns into a
      500. */
  function Verify(s: Store, username: string, code: string, now: int, decode: string -> Option<string>): (r: Outcome)
    ensures decode(username).None? ==> r == Outcome(Response(500, false, DecodeFailed), s)
    ensures decode(username).Some? && !Holds(s, ByUsername(decode(username).value)) ==>
      r == Outcome(Response(404, false, NotFound), s)
    // success exactly when the first holder's code is the submitted one and has not expired
    ensures r.response.success <==>
      && decode(username).Some?
      && exists i :: && IsFirst(s, i, ByUsername(decode(username).value))
                  && s[i].verifyCode == code
                  && !(s[i].verifyCodeExpiry < now)
    // the only change a request can make is to mark one account verified
    ensures r.response.success ==>
      && decode(username).Some?
      && exists i :: IsFirst(s, i, ByUsername(decode(username).value))
                  && r.store == s[i := s[i].(isVerified := true)]
    ensures !r.response.success ==> r.store == s
  {
    match decode(username)
    case None => Outcome(Response(500, false, DecodeFailed), s)
    case Some(name) =>
      match FindOne(s, ByUsername(name))
      case None => Outcome(Response(404, false, NotFound), s)
      case Some(i) =>
        var user := s[i];
        var isCodeValid := user.verifyCode == code;
        var isCodeExpired := IsExpired(user, now);
        if !isCodeExpired && isCodeValid then
          Outcome(Response(200, true, Verified), s[i := user.(isVerified := true)])
        else if isCodeExpired then
          Outcome(Response(400, false, Expired), s)
        else
          Outcome(Response(400, false, Incorrect), s)
  }

  /** The three outcomes for an account that exists, stated against the
      record the lookup finds. */
  lemma VerifyDecision(s: Store, username: string, code: string, now: int, decode: string -> Option<string>, i: int)
    requires decode(username).Some?
    requires IsFirst(s, i, ByUsername(decode(username).value))
    ensures var r := Verify(s, username, code, now, decode);
      && (s[i].verifyCode == code && s[i].verifyCodeExpiry >= now ==>
            r == Outcome(Response(200, true, Verified), s[i := s[i].(isVerified := true)]))
      && (s[i].verifyCodeExpiry < now ==>
            r == Outcome(Response(400, false, Expired), s))
      && (s[i].verifyCode != code && s[i].verifyCodeExpiry >= now ==>
            r == Outcome(Response(400, false, Incorrect), s))
  {
    FirstIsUnique(s, i, ByUsername(decode(username).value));
  }

  /** Verification only ever raises `isVerified`: no account loses it, no
      account is added or removed, and nothing else about any account
      changes. */
  lemma VerifyOnlyRaisesFlag(s: Store, username: string, code: string, now: int, decode: string -> Option<string>)
    ensures var s' := Verify(s, username, code, now, decode).store;
      && |s'| == |s|
      && forall j :: 0 <= j < |s| ==>
           && s'[j] == s[j].(isVerified := s'[j].isVerified)
           && (s[j].isVerified ==> s'[j].isVerified)
  {
  }

  /** Repeating a successful verification with the same code before expiry
      succeeds again and changes nothing further. */
  lemma VerifyIdempotent(s: Store, username: string, code: string, now: int, decode: string -> Option<string>)
    requires Verify(s, username, code, now, decode).response.success
    ensures var s1 := Verify(s, username, code, now, decode).store;
      var r2 := Verify(s1, username, code, now, decode);
      r2.response.success && r2.store == s1
  {
    var name := decode(username).value;
    var i :| IsFirst(s, i, ByUsername(name)) && s[i].verifyCode == code && !(s[i].verifyCodeExpiry < now);
    FirstIsUnique(s, i, ByUsername(name));
    var s1 := Verify(s, username, code, now, decode).store;
    assert IsFirst(s1, i, ByUsername(name));
    FirstIsUnique(s1, i, ByUsername(name));
  }
}

=== FILE: wrappers.dfy ===
/** The optional-value type shared by every module of the model. */
module Wrappers {

  /** `None` stands for JavaScript's `null`/`undefined`: a missing query
      parameter, a lookup that found nothing, a middleware that does not
      redirect. */
  datatype Option<+T> = None | Some(value: T)
}
